=== FILE: README.md ===
# Whisper transcription tool: transcript rendering, flattening and the job lifecycle

This project models the core of a desktop speech-to-text tool. The tool is
one window (`WhisperTranscribeApp` in `transcribe.py`). It lets the user pick
an audio file, loads a Whisper recogniser once, and transcribes the file on a
background thread. It renders the result as text behind a
"detected language" banner, with or without `[start --> end]` stamps per
segment. It can save the transcript automatically or through a save dialog,
optionally flattened to a single line of plain text.

Modules:

- `Wrappers`: the `Option` type.
- `PyText`: the Python string built-ins the tool relies on. These are
  `str.strip` with Python's whitespace set, substring `in`, the point where
  `split('] ', 1)` cuts a line, `split('\n')` and `' '.join`. Strip, the cut
  point and split carry their own contracts. Join has no contract; its body is
  `sep.join` itself. The inverse laws fix it on non-empty lists of
  separator-free parts.
- `TimeFormat`: `format_time` over whole hundredths of a second, with a parser
  for what it writes, proved to be its inverse.
- `Transcript`: the rendering block of `perform_transcription` (a function and
  a loop method proved equal to it) and `extract_text_only` (a loop method
  proved equal to a line-by-line specification).
- `TranscriptLaws`: what flattening does to each kind of line, and the round
  trip from a rendered transcript back to its segment texts. It also proves
  the exact condition under which flattening twice changes nothing.
- `OutputNames`: `os.path.basename`, `os.path.splitext` and `os.path.join` on
  POSIX paths, and the two file names the tool builds.
- `App`: the window as a class. The fields are the settings (file path,
  language hint, model size, the three check boxes, the output directory)
  and the state the job changes (the cached model, the start button, the
  status bar and its history, the output text). Starting a job, running it,
  loading the model, auto-saving and saving through the dialog are methods.
  Whole runs of the application are methods too.

Two behaviours of the code are easy to misread, and the model keeps both:

- The seconds in a time stamp are not zero-padded (`00:00:1.00`, not
  `00:00:01.00`), as the comment in `extract_text_only` also shows.
- The stamped layout is used whenever stamps are switched on and the result
  has a segment list, even an empty one. The body is then empty.

As written, loading the model always fails (see "Findings"). The job methods
run the corrected load; "Left out" says what that changes.

## Model

| member | source | states |
|---|---|---|
| PyText.Strip | transcribe.py:349 | `str.strip`: the result is the input minus its leading and trailing Python whitespace and begins and ends with a non-space character |
| PyText.StripIdempotent | transcribe.py:349-356 | stripping twice is stripping once |
| PyText.FindFirst | transcribe.py:351 | the first occurrence of a pattern: it occurs there and nowhere before; none means it occurs nowhere |
| PyText.Split | transcribe.py:339 | `split('\n')` yields at least one part and no part holds the separator |
| PyText.SplitThenJoin | transcribe.py:339 | joining the parts of a split with the separator gives back the text |
| PyText.JoinThenSplit | transcribe.py:339 | splitting a join of separator-free parts gives back the parts |
| PyText.Join | transcribe.py:359 | `sep.join(parts)`, defined clause for clause (empty list, one part, a part then the separator then the rest); `SplitThenJoin` and `JoinThenSplit` fix it on non-empty lists of separator-free parts, and `JoinAvoids` holds for all lists |
| PyText.Contains | transcribe.py:345-349 | Python's substring `in`: true exactly when the pattern has a first occurrence, so by `FindFirst`'s contract exactly when it occurs somewhere |
| PyText.JoinAvoids | transcribe.py:359 | a character absent from the parts and from the separator is absent from the join |
| TimeFormat.FormatTime | transcribe.py:268-272 | `format_time` over whole hundredths: two-digit hours and minutes, unpadded seconds, two-digit hundredths; its meaning is stated by `FormatTimeRoundTrip`, `FormatTimeChars` and `FormatTimeWidth` |
| TimeFormat.FormatTimeRoundTrip | transcribe.py:268-272 | every stamp reads back as the offset it was written from, so the minutes and whole seconds written are below 60 and the hundredths have two digits |
| TimeFormat.FormatTimeChars | transcribe.py:268-272 | a stamp holds only digits, `:` and `.` |
| TimeFormat.FormatTimeWidth | transcribe.py:268-272 | below 100 hours a stamp is 10 characters under ten seconds into a minute and 11 from there, because the seconds are not padded |
| TimeFormat.FormatTimeStart | transcribe.py:272 | the start of the audio is written `00:00:0.00` |
| TimeFormat.FormatTimeExample | transcribe.py:270-272 | 3661.05 seconds is written `01:01:1.05` |
| Transcript.DetectedLanguage | transcribe.py:231 | the recogniser's language, or `不明` when it reports none; `Render`'s contract and `SegmentLineUnit` use it |
| Transcript.Banner | transcribe.py:237 | `lang_info`: the marker, `: `, the language and a blank line; `BannerIgnored` and `BannerOnlyFlattensToNothing` state what flattening does with it |
| Transcript.SegmentLine | transcribe.py:242-245 | one stamped line without its line break: `[`, the start stamp, ` --> `, the end stamp, `] ` and the stripped segment text; `SegmentLineUnit` states what flattening gets back from it |
| Transcript.TimestampedBody | transcribe.py:241-245 | the `output_text` the segment loop builds: each segment's line followed by a blank line, in segment order; `RenderTimestamped` is proved equal to it, and `TimestampedBodyUnits` and `EmptySegmentList` state its properties |
| Transcript.Render | transcribe.py:231-248 | the output starts with the language banner; without stamps, or without a segment list, the rest is the recogniser's text verbatim |
| Transcript.RenderTimestamped | transcribe.py:239-245 | the loop builds exactly one `[start --> end] text` line per segment, each followed by a blank line, in segment order |
| App.RenderResult | transcribe.py:231-248 | the text `Recognize` shows equals the rendered transcript |
| Transcript.LineUnit | transcribe.py:343-356 | what one line contributes to `result_lines`, branch for branch; its cases are stated by `BannerLineDropped`, `BlankLineDropped`, `UnclosedBracketDropped`, `BracketLineUnit`, `PlainLineUnit` and `UnitShape` |
| Transcript.PlainText | transcribe.py:337-359 | `extract_text_only` as a specification: the units of the lines joined by single spaces; `ExtractTextOnly` is proved equal to it, and `PlainTextIsOneLine`, `PlainTextStripped` and `Reflatten` state its properties |
| Transcript.ExtractTextOnly | transcribe.py:337-359 | the loop's result equals the line-by-line specification `PlainText` |
| TranscriptLaws.BannerLineDropped | transcribe.py:345-346 | a line holding the banner marker contributes nothing |
| TranscriptLaws.BlankLineDropped | transcribe.py:349-357 | a blank or all-space line contributes nothing |
| TranscriptLaws.UnclosedBracketDropped | transcribe.py:349-357 | a line whose stripped form starts with `[` but holds no `] ` contributes nothing |
| TranscriptLaws.BracketLineUnit | transcribe.py:349-353 | a bracketed line contributes the stripped text after its FIRST `] `, or nothing when that is blank |
| TranscriptLaws.PlainLineUnit | transcribe.py:354-356 | any other non-blank line contributes itself, stripped |
| TranscriptLaws.UnitShape | transcribe.py:349-356 | what a line contributes is non-empty, stripped and made of the line's own characters |
| TranscriptLaws.BracketLine | transcribe.py:349-353 | a stamp and `] ` before a stripped, marker-free text contribute exactly that text |
| TranscriptLaws.TextUnitsEmpty | transcribe.py:339-357 | the empty transcript has no units |
| TranscriptLaws.TextUnitsOfLine | transcribe.py:339-357 | a one-line text has exactly the units of its only line |
| TranscriptLaws.BannerIgnored | transcribe.py:237 | the banner in front of a body changes nothing in what flattening keeps |
| TranscriptLaws.TerminatedUnits | transcribe.py:245 | lines each followed by a blank line flatten to the units of the lines, in order |
| TranscriptLaws.AllKept | transcribe.py:343-357 | when every line contributes, the units are those contributions, in line order |
| TranscriptLaws.PlainTextIsOneLine | transcribe.py:359 | flattened text holds no line break |
| TranscriptLaws.SegmentLineUnit | transcribe.py:245 | a stamped line of a recoverable segment contributes the segment's stripped text |
| TranscriptLaws.TimestampedBodyUnits | transcribe.py:241-245 | the stamped body flattens to the stripped segment texts, one per segment, in order |
| TranscriptLaws.TimestampedRoundTrip | transcribe.py:231-248 | a stamped transcript flattens to the stripped segment texts joined by spaces, when no text is blank, holds a line break or holds the marker |
| TranscriptLaws.PlainRoundTrip | transcribe.py:246-248 | without stamps, flattening the transcript equals flattening the recogniser's text |
| TranscriptLaws.EmptySegmentList | transcribe.py:239-245 | an empty segment list renders the banner alone, which flattens to the empty text |
| TranscriptLaws.BannerOnlyFlattensToNothing | transcribe.py:237 | the banner is non-empty yet flattens to the empty text |
| TranscriptLaws.TextUnitsTrimmed | transcribe.py:351-356 | every unit is non-empty and stripped |
| TranscriptLaws.JoinTrimmed | transcribe.py:359 | joining non-empty stripped units with spaces gives a stripped text |
| TranscriptLaws.PlainTextStripped | transcribe.py:337-359 | flattened text is already stripped |
| TranscriptLaws.Reflatten | transcribe.py:337-359 | flattening a flattened text changes nothing if and only if it is empty, or holds no banner marker and does not start with `[` |
| TranscriptLaws.ReflattenBracket | transcribe.py:349-353 | flattening a one-line text that starts with `[` drops it or shortens it |
| TranscriptLaws.ReflattenExample | transcribe.py:349-353 | `[a] [b] c` flattens to `[b] c`, which flattens to `c`: flattening is not idempotent |
| TranscriptLaws.OneBracket | transcribe.py:349-353 | a one-line text of a stamp, `] ` and a trimmed text flattens to the text |
| OutputNames.LastIndex | transcribe.py:320-321 | the last position of a character: it is there and not after; none means it is absent |
| OutputNames.Basename | transcribe.py:320 | the name has no `/`, ends the path and is preceded by a `/` when shorter than it |
| OutputNames.SplitExt | transcribe.py:321 | stem and extension concatenate to the name; a non-empty extension is a last `.` and what follows it, after a stem that is not all dots; otherwise there is no dot, or only dots before the last one |
| OutputNames.PathJoin | transcribe.py:326 | `os.path.join`: an absolute name is the path by itself; otherwise the path is the directory followed by the name, with a `/` between them exactly when the directory is non-empty and does not already end with one |
| OutputNames.JoinUnder | transcribe.py:326 | a relative name joined to a directory gives a path that starts with the directory |
| OutputNames.AudioStem | transcribe.py:320-321 | `audio_name`: the base name of the audio path without its extension; `StemAndExtension`, `StemOf` and `HiddenFileName` state what it gives |
| OutputNames.AutoSaveFilename | transcribe.py:320-323 | `<stem>_<timestamp>.txt`; `AutoSaveNameOf`, `HiddenFileName` and `AutoSaveNameRelative` state what it gives |
| OutputNames.DefaultSaveFilename | transcribe.py:302 | `transcription_<timestamp>.txt`, the name `SaveToFile` offers |
| OutputNames.StemAndExtension | transcribe.py:320-321 | the audio stem is a prefix of the audio file's name |
| OutputNames.BasenameOfJoin | transcribe.py:326 | a name without `/` joined to any directory is the joined path's last component |
| OutputNames.AutoSaveLandsInDirectory | transcribe.py:320-326 | the auto-save path starts with the output directory, and with a `/`-free timestamp its last component is `<stem>_<timestamp>.txt` |
| OutputNames.AutoSaveNameRelative | transcribe.py:320-323 | the auto-save name is never absolute: it starts with the stem of a `/`-free name, or with `_` |
| OutputNames.AutoSaveNameLast | transcribe.py:320-326 | with a `/`-free timestamp the auto-save name is the last component of the joined path |
| OutputNames.BasenameAfterSlash | transcribe.py:320 | the last component of `dir/name` is `name` |
| OutputNames.SplitExtAtDot | transcribe.py:321 | a dot-free extension after a stem that is not all dots is split off |
| OutputNames.StemOf | transcribe.py:320-321 | the stem of `<dir>/<stem>.<ext>` is `<stem>` when the extension has no dot and the stem is not all dots, so `/recordings/interview.wav` gives `interview` |
| OutputNames.AutoSaveNameOf | transcribe.py:320-323 | such a recording is saved as `<stem>_<timestamp>.txt` |
| OutputNames.HiddenFileName | transcribe.py:320-323 | a name whose only dot leads it has no extension, so `/tmp/.wav` is saved as `.wav_<timestamp>.txt` |
| App.Tenths | transcribe.py:157 | a duration in whole tenths of a second written with one decimal, as `:.1f` writes it |
| App.StatusText | transcribe.py:149-377 | the status bar's wording for each `Status`, one case per message the window sets |
| App.HintLanguage | transcribe.py:186-188 | the job gets a language exactly when the stripped hint is non-empty, and then the stripped hint |
| App.BuildOptions | transcribe.py:211-218 | the task is `transcribe`, verbose is off, and a language is passed exactly when one is given and non-empty |
| App.TranscribeOptions | transcribe.py:211-218 | the options dictionary built entry by entry is exactly `BuildOptions` of the job's language |
| App.LanguageForwarded | transcribe.py:186-218 | the recogniser gets a language exactly when the stripped hint is non-empty, and then that hint, already stripped |
| App.TranscriberApp.constructor | transcribe.py:26-37 | the window starts with no model, model size `medium`, stamps off, auto-save and text-only saving on, the button enabled and status ready |
| App.TranscriberApp.SetStatus | transcribe.py:149 | the status bar shows the new status and the history records it |
| App.TranscriberApp.StartTranscription | transcribe.py:165-195 | no file chosen and a missing file are reported and leave the button alone; otherwise the button is disabled and the job gets the path and the trimmed hint |
| App.TranscriberApp.LoadModel | transcribe.py:142-163 | the load is counted and announced; success returns a model of the chosen size and reports the load time, failure reports the failure and returns none (`PerformTranscription` caches what it returns) |
| App.TranscriberApp.LoadModelAsWritten | transcribe.py:144-163 | as written, every load fails before it is announced: the status goes straight to the failure and no model is returned |
| App.TranscriberApp.PerformTranscription | transcribe.py:197-266 | the model is loaded only when none is cached; a failed load ends the job; otherwise the recogniser is asked for the job's audio file with the options built from the job's language, the statuses follow in order, and on success the rendered output is shown and, with auto-save on, handed back with the job's audio path; the button is enabled on every way out |
| App.TranscriberApp.Recognize | transcribe.py:206-258 | language detection is announced only without a language; the recogniser is asked for the job's audio file with the options built from its language; a failed recognition leaves the output alone and saves nothing; a successful one shows the rendering and, when auto-save is on, hands it back with the job's audio path |
| App.TranscriberApp.AutoSaveResult | transcribe.py:314-335 | an empty transcript is not saved; otherwise the output directory receives `<stem>_<timestamp>.txt` holding the flattened or full text, and only a successful write is announced |
| App.TranscriberApp.SaveToFile | transcribe.py:289-312 | with nothing but whitespace in the output nothing happens; otherwise `transcription_<timestamp>.txt` is offered and, unless the dialog is cancelled, the chosen file receives the stripped output, flattened when text-only saving is on |
| App.Flattened | transcribe.py:328-330 | the text written is the flattened text when text-only saving is on, and the text itself otherwise |
| App.TranscriberApp.AutoSaveWrite | transcribe.py:316-330 | the file is written exactly when the transcript is not empty, under `<stem>_<timestamp>.txt` in the output directory, holding the flattened text when text-only saving is on and the full text otherwise |
| App.TranscriberApp.AutoSaveTarget | transcribe.py:320-326 | the file name is `<stem>_<timestamp>.txt` and the path is that name joined to the output directory; the path starts with the output directory, and for a timestamp without `/` its last component is that name |
| App.BannerOnlyAutoSave | transcribe.py:314-333 | a transcript that is only the banner passes the empty-text check and is saved as an empty file |
| App.JobWithFailedLoad | transcribe.py:197-204 | a job whose model load fails leaves no model and no output, shows the loading and failure statuses, never asks the recogniser, and re-enables the button |
| App.EditDuringJob | transcribe.py:197-258 | editing the file field while a job runs changes nothing for that job: the recogniser is asked for the file the job started with, and the auto-save is named after that file |
| App.TwoJobsLoadOnce | transcribe.py:197-204 | two jobs in a row load the model once; the second job's rendering is what is shown |

## Left out

- The widgets, the progress bar, message boxes, the clipboard copy, clearing the output and the directory chooser are not modelled. Status messages are modelled as `Status` values, and `StatusText` gives their wording without a contract.
- The background thread and `root.after` callbacks are not modelled. Each job runs to completion in sequence. The auto-save it schedules is returned as a `PendingSave` holding the job's audio path and the transcript, and the caller hands both to `AutoSaveResult`.
- The Whisper recogniser is not modelled. Its load outcome and its recognition result are parameters, and a recognition failure of any kind is `None`.
- The clock is not modelled. Elapsed times are given in tenths of a second and the `strftime` timestamp is a string parameter.
- Floating point is not modelled. Offsets are whole hundredths of a second, so Python's rounding of `:.2f` on inexact floats is not captured.
- The file system is not modelled. `os.path.exists` is a parameter, and saving is a `FileWrite` request with a success flag. Encoding errors and `os.makedirs` are not modelled.
- Windows path separators and drive letters are not modelled; paths are POSIX.
- Lone surrogates, which a Python `str` can hold, are not modelled. Strings are sequences of Unicode scalar values.
- The text widget's trailing newline from `get(1.0, END)` is not modelled. It is removed by the `strip` that follows in both places it is read.
- The save dialog's `initialdir` (the output directory) and `defaultextension` are not modelled. The chosen path is used as given.
- App.TranscriberApp.PerformTranscription: it runs the corrected `LoadModel`, not the load as written. As written, the load raises at transcribe.py:146 before it announces loading, so the code can never show `LoadingModel` followed by `ModelLoadFailed`, and its successful-load branch is unreachable. `LoadModelAsWritten` models the code as written. `JobWithFailedLoad`, `TwoJobsLoadOnce` and `EditDuringJob` also run the corrected load.
- App.TwoJobsLoadOnce: the jobs are given directly instead of through clicks of the start button.
- App.JobWithFailedLoad: the job is given directly instead of through a click of the start button.

## Findings

| source | as written | input that shows it | evidently intended | confidence | as-written member | corrected member |
|---|---|---|---|---|---|---|
| transcribe.py:146 | choosing the device reads `self.use_gpu_var` and `self.gpu_available`, which the window never defines, so every load raises and is reported as a failed load before "loading" is shown | any job started while no model is cached | pick the device from a GPU setting that exists, then load the model and report the load time | high, not executed | App.TranscriberApp.LoadModelAsWritten | App.TranscriberApp.LoadModel |

=== FILE: app.dfy ===
/**
 * The application window's state and its job lifecycle: `start_transcription`
 * validates the chosen file and disables the button, `perform_transcription`
 * loads the recogniser once, transcribes, renders the result and re-enables
 * the button on every way out, and the two save paths write the transcript.
 *
 * The recogniser, the file system and the clock are not modelled: what they
 * answer is passed in as parameters (`loadSucceeds`, `recognition`,
 * `pathExists`, `writeSucceeds`, elapsed times, timestamps).
 */
module App {
  import opened Wrappers
  import opened PyText
  import opened TimeFormat
  import opened Transcript
  import opened OutputNames
  import opened TranscriptLaws

  /** What the status bar says. */
  datatype Status =
    | Ready
    | LoadingModel(modelSize: string)
    | ModelLoaded(loadTenths: nat)
    | ModelLoadFailed
    | DetectingLanguage
    | Transcribing
    | Finished(elapsedTenths: nat, language: string)
    | Failed
    | AutoSaved(filename: string)

  /** A duration given in tenths of a second, written with one decimal. */
  function Tenths(t: nat): string {
    Decimal(t / 10) + "." + Decimal(t % 10)
  }

  /** The status bar's text for each status. */
  function StatusText(s: Status): string {
    match s
    case Ready => "準備完了"
    case LoadingModel(size) => size + "モデルをロード中..."
    case ModelLoaded(t) => "モデルロード完了: " + Tenths(t) + "秒"
    case ModelLoadFailed => "エラー: モデルのロードに失敗"
    case DetectingLanguage => "言語を自動検出中..."
    case Transcribing => "文字起こし処理中..."
    case Finished(t, lang) => "完了: " + Tenths(t) + "秒 - 言語: " + lang
    case Failed => "エラーが発生しました"
    case AutoSaved(name) => "完了: ファイルを自動保存しました: " + name
  }

  /** A loaded recogniser, known by the model size it was loaded with. */
  datatype Model = Model(size: string)

  /** The text either save writes: flattened when text-only saving is on. */
  method Flattened(textOnly: bool, text: string) returns (content: string)
    ensures content == if textOnly then PlainText(text) else text
  {
    content := text;
    if textOnly {
      content := ExtractTextOnly(text);
    }
  }

  /** The keyword arguments given to the recogniser. */
  datatype Options = Options(task: string, verbose: bool, language: Option<string>)

  /** What the background thread is given: the audio path and the language, if any. */
  datatype Job = Job(filePath: string, language: Option<string>)

  /** What the recogniser is asked: the job's audio file, with the options. */
  datatype RecognizerCall = RecognizerCall(audioPath: string, options: Options)

  /** An auto-save a finished job schedules: the job's audio file and the transcript shown. */
  datatype PendingSave = PendingSave(audioPath: string, text: string)

  /** How a click on the start button ends. */
  datatype StartOutcome = NoFileSelected | FileNotFound | Started(job: Job)

  /** A file the application asks to have written: where, and what. */
  datatype FileWrite = FileWrite(path: string, content: string)

  /** The language field as the job receives it: trimmed, and absent when blank. */
  function HintLanguage(hint: string): (lang: Option<string>)
    ensures lang.Some? <==> Strip(hint) != []
    ensures lang.Some? ==> lang.value == Strip(hint)
  {
    if Strip(hint) == [] then None else Some(Strip(hint))
  }

  /**
   * The recogniser's options: always a transcription without progress
   * output, and a language only when the job has a non-empty one.
   */
  function BuildOptions(language: Option<string>): (o: Options)
    ensures o.task == "transcribe" && !o.verbose
    ensures o.language.Some? <==> language.Some? && language.value != []
    ensures o.language.Some? ==> o.language == language
  {
    Options("transcribe", false, if language.Some? && language.value != [] then language else None)
  }

  /** The options dictionary as `perform_transcription` builds it: the fixed entries, then the language if given. */
  method TranscribeOptions(language: Option<string>) returns (options: Options)
    ensures options == BuildOptions(language)
  {
    options := Options("transcribe", false, None);
    if language.Some? && language.value != [] {
      options := options.(language := language);
    }
  }

  /**
   * From the language field to the recogniser: the option is present exactly
   * when the trimmed field is non-empty, and then it is the trimmed field,
   * which has no whitespace left to trim.
   */
  lemma LanguageForwarded(hint: string)
    ensures BuildOptions(HintLanguage(hint)).language.Some? <==> Strip(hint) != []
    ensures Strip(hint) != [] ==> BuildOptions(HintLanguage(hint)).language == Some(Strip(hint))
    ensures Strip(hint) != [] ==> Strip(BuildOptions(HintLanguage(hint)).language.value) == Strip(hint)
  {
    StripIdempotent(hint);
  }

  /**
   * The formatting block of `perform_transcription`: the banner, then the
   * timestamped lines (built by the loop of `RenderTimestamped`) or the
   * recogniser's text. `TranscriberApp.Recognize` calls it to fill the output.
   */
  method RenderResult(result: RecognitionResult, timestamps: bool) returns (text: string)
    ensures text == Render(result, timestamps)
  {
    var detected := DetectedLanguage(result);
    var langInfo := Banner(detected);
    var body: string;
    if timestamps && result.segments.Some? {
      body := RenderTimestamped(result.segments.value);
    } else {
      body := result.text;
    }
    text := langInfo + body;
  }

  class TranscriberApp {
    // The window's settings, as the user last left them.
    var filePath: string
    var languageHint: string
    var modelSize: string
    var timestamps: bool
    var autoSave: bool
    var textOnlySave: bool
    var outputDir: string

    /** The recogniser, once loaded. */
    var model: Option<Model>
    /** Whether the start button can be clicked. */
    var buttonEnabled: bool
    /** The status bar's current status. */
    var status: Status
    /** Every status shown so far, oldest first. */
    var shown: seq<Status>
    /** The transcript shown in the result area. */
    var output: string
    /** How many times a model load was attempted. */
    ghost var loads: nat

    ghost predicate Valid()
      reads this
    {
      shown != [] && status == shown[|shown| - 1]
    }

    /** A fresh window, with the settings it starts with. */
    constructor(outputDir: string)
      ensures Valid()
      ensures filePath == [] && languageHint == "ja" && modelSize == "medium"
      ensures !timestamps && autoSave && textOnlySave && this.outputDir == outputDir
      ensures model.None? && buttonEnabled && shown == [Ready] && output == [] && loads == 0
    {
      filePath := [];
      languageHint := "ja";
      modelSize := "medium";
      timestamps := false;
      autoSave := true;
      textOnlySave := true;
      this.outputDir := outputDir;
      model := None;
      buttonEnabled := true;
      status := Ready;
      shown := [Ready];
      output := [];
      loads := 0;
    }

    /** Shows a new status. */
    method SetStatus(s: Status)
      requires Valid()
      modifies this`status, this`shown
      ensures Valid() && status == s && shown == old(shown) + [s]
    {
      status := s;
      shown := shown + [s];
    }

    /**
     * `start_transcription`: with no file chosen or a file that does not exist
     * nothing starts and the button stays as it was; otherwise the button is
     * disabled and a job starts with the trimmed language, or none when blank.
     * `pathExists` is the file system's answer for `filePath`.
     */
    method StartTranscription(pathExists: bool) returns (outcome: StartOutcome)
      modifies this`buttonEnabled
      ensures filePath == [] ==> outcome == NoFileSelected
      ensures filePath != [] && !pathExists ==> outcome == FileNotFound
      ensures outcome.Started? <==> filePath != [] && pathExists
      ensures !outcome.Started? ==> buttonEnabled == old(buttonEnabled)
      ensures outcome.Started? ==> !buttonEnabled && outcome.job == Job(filePath, HintLanguage(languageHint))
    {
      if filePath == [] {
        return NoFileSelected;
      }
      if !pathExists {
        return FileNotFound;
      }
      buttonEnabled := false;
      var language: Option<string> := Some(Strip(languageHint));
      if Strip(languageHint) == [] {
        language := None;
      }
      outcome := Started(Job(filePath, language));
    }

    /**
     * `load_model`: announces the load, then either the load time or the
     * failure. `succeeds` and `loadTenths` are what the recogniser library did.
     */
    method LoadModel(succeeds: bool, loadTenths: nat) returns (m: Option<Model>)
      requires Valid()
      modifies this`status, this`shown, this`loads
      ensures Valid() && loads == old(loads) + 1
      ensures m == if succeeds then Some(Model(modelSize)) else None
      ensures shown == old(shown) + [LoadingModel(modelSize), if succeeds then ModelLoaded(loadTenths) else ModelLoadFailed]
    {
      loads := loads + 1;
      SetStatus(LoadingModel(modelSize));
      if succeeds {
        m := Some(Model(modelSize));
        SetStatus(ModelLoaded(loadTenths));
      } else {
        m := None;
        SetStatus(ModelLoadFailed);
      }
    }

    /**
     * `load_model` as written: choosing the device reads two attributes the
     * window never sets, so the lookup fails before the load is announced,
     * and the handler reports a failed load. No model is ever returned.
     */
    method LoadModelAsWritten() returns (m: Option<Model>)
      requires Valid()
      modifies this`status, this`shown, this`loads
      ensures Valid() && loads == old(loads) + 1
      ensures m.None? && shown == old(shown) + [ModelLoadFailed]
    {
      loads := loads + 1;
      // the attribute lookup raises before the loading status is shown
      SetStatus(ModelLoadFailed);
      m := None;
    }

    /**
     * `perform_transcription` for one job. The model is loaded only when none
     * is cached; a failed load ends the job. Otherwise the recogniser is asked
     * for the job's audio file with the options built (`recognition` is its
     * answer, or `None` when it raised), and on success the rendered
     * transcript replaces the output and, with auto-save on, is handed back
     * with the job's audio path for `AutoSaveResult`. The button is enabled
     * again on every way out.
     */
    method PerformTranscription(job: Job, loadSucceeds: bool, loadTenths: nat,
                                recognition: Option<RecognitionResult>, elapsedTenths: nat)
      returns (call: Option<RecognizerCall>, pendingSave: Option<PendingSave>)
      requires Valid()
      modifies this`model, this`status, this`shown, this`output, this`buttonEnabled, this`loads
      ensures Valid() && buttonEnabled
      ensures old(model).Some? ==> model == old(model) && loads == old(loads)
      ensures old(model).None? ==> loads == old(loads) + 1 && model == if loadSucceeds then Some(Model(modelSize)) else None
      ensures model.None? ==>
        call.None? && pendingSave.None? && output == old(output) &&
        shown == old(shown) + [LoadingModel(modelSize), ModelLoadFailed]
      ensures model.Some? ==>
        call == Some(RecognizerCall(job.filePath, BuildOptions(job.language))) &&
        shown == old(shown) + (if old(model).None? then [LoadingModel(modelSize), ModelLoaded(loadTenths)] else []) +
                 (if job.language.None? then [DetectingLanguage] else []) + [Transcribing] +
                 [if recognition.Some? then Finished(elapsedTenths, DetectedLanguage(recognition.value)) else Failed]
      ensures model.Some? && recognition.None? ==> output == old(output) && pendingSave.None?
      ensures model.Some? && recognition.Some? ==>
        output == Render(recognition.value, timestamps) &&
        pendingSave == if autoSave then Some(PendingSave(job.filePath, output)) else None
    {
      pendingSave := None;
      if model.None? {
        var loaded := LoadModel(loadSucceeds, loadTenths);
        model := loaded;
        if model.None? {
          buttonEnabled := true;
          return None, None;
        }
      }
      var asked, pending := Recognize(job, recognition, elapsedTenths);
      call := Some(asked);
      pendingSave := pending;
      buttonEnabled := true;
    }

    /**
     * The part of `perform_transcription` after a model is at hand: build the
     * options, ask the recogniser for the job's audio file (`recognition` is
     * its answer, or `None` when it raised), and on success show the rendered
     * transcript and hand it back, with the job's audio path, for auto-saving
     * when that is on.
     */
    method Recognize(job: Job, recognition: Option<RecognitionResult>, elapsedTenths: nat)
      returns (call: RecognizerCall, pendingSave: Option<PendingSave>)
      requires Valid()
      modifies this`status, this`shown, this`output
      ensures Valid()
      ensures call == RecognizerCall(job.filePath, BuildOptions(job.language))
      ensures shown == old(shown) + (if job.language.None? then [DetectingLanguage] else []) + [Transcribing] +
                       [if recognition.Some? then Finished(elapsedTenths, DetectedLanguage(recognition.value)) else Failed]
      ensures recognition.None? ==> output == old(output) && pendingSave.None?
      ensures recognition.Some? ==>
        output == Render(recognition.value, timestamps) &&
        pendingSave == if autoSave then Some(PendingSave(job.filePath, output)) else None
    {
      pendingSave := None;
      if job.language.None? {
        SetStatus(DetectingLanguage);
      }
      var options := TranscribeOptions(job.language);
      SetStatus(Transcribing);
      call := RecognizerCall(job.filePath, options);
      if recognition.Some? {
        var result := recognition.value;
        var rendered := RenderResult(result, timestamps);
        output := rendered;
        SetStatus(Finished(elapsedTenths, DetectedLanguage(result)));
        if autoSave {
          pendingSave := Some(PendingSave(job.filePath, rendered));
        }
      } else {
        SetStatus(Failed);
      }
    }

    /**
     * `auto_save_result`: an empty transcript is not saved. Otherwise the file
     * goes to the output directory under the audio stem and the timestamp,
     * holding the flattened text when text-only saving is on (even when that
     * flattened text is empty); a successful write is announced.
     */
    method AutoSaveResult(audioPath: string, text: string, timestamp: string, writeSucceeds: bool)
      returns (write: Option<FileWrite>)
      requires Valid()
      modifies this`status, this`shown
      ensures Valid()
      ensures text == [] ==> write.None? && shown == old(shown)
      ensures text != [] ==>
        write == Some(FileWrite(PathJoin(outputDir, AutoSaveFilename(audioPath, timestamp)),
                                if textOnlySave then PlainText(text) else text))
      ensures text != [] && writeSucceeds ==> shown == old(shown) + [AutoSaved(AutoSaveFilename(audioPath, timestamp))]
      ensures text != [] && !writeSucceeds ==> shown == old(shown)
    {
      var outputFilename;
      outputFilename, write := AutoSaveWrite(audioPath, text, timestamp);
      if write.Some? && writeSucceeds {
        SetStatus(AutoSaved(outputFilename));
      }
    }

    /** The file `auto_save_result` writes, if any, and the name it is written under. */
    method AutoSaveWrite(audioPath: string, text: string, timestamp: string)
      returns (outputFilename: string, write: Option<FileWrite>)
      ensures outputFilename == AutoSaveFilename(audioPath, timestamp)
      ensures write.Some? <==> text != []
      ensures text != [] ==>
        write == Some(FileWrite(PathJoin(outputDir, outputFilename),
                                if textOnlySave then PlainText(text) else text))
    {
      var outputPath;
      outputFilename, outputPath := AutoSaveTarget(audioPath, timestamp);
      write := None;
      if text != [] {
        var content := Flattened(textOnlySave, text);
        write := Some(FileWrite(outputPath, content));
      }
    }

    /** Where `auto_save_result` writes: the file name from the audio name and the timestamp, inside the output directory. */
    method AutoSaveTarget(audioPath: string, timestamp: string) returns (outputFilename: string, outputPath: string)
      ensures outputFilename == AutoSaveFilename(audioPath, timestamp)
      ensures outputPath == PathJoin(outputDir, outputFilename)
      ensures |outputDir| <= |outputPath| && outputPath[..|outputDir|] == outputDir
      ensures '/' !in timestamp ==> Basename(outputPath) == outputFilename
    {
      var audioFilename := Basename(audioPath);
      var audioName := SplitExt(audioFilename).0;
      outputFilename := audioName + "_" + timestamp + ".txt";
      outputPath := PathJoin(outputDir, outputFilename);
      AutoSaveLandsInDirectory(outputDir, audioPath, timestamp);
    }

    /**
     * `save_to_file`: the trimmed output is saved, flattened when text-only
     * saving is on; with nothing to save no dialog opens. The dialog offers
     * `transcription_<timestamp>.txt`; `chosenPath` is what the user picked,
     * empty when they cancelled.
     */
    method SaveToFile(timestamp: string, chosenPath: string)
      returns (offered: Option<string>, write: Option<FileWrite>)
      ensures Strip(output) == [] ==> offered.None? && write.None?
      ensures Strip(output) != [] ==> offered == Some(DefaultSaveFilename(timestamp))
      ensures write.Some? <==> Strip(output) != [] && chosenPath != []
      ensures write.Some? ==>
        write.value == FileWrite(chosenPath, if textOnlySave then PlainText(Strip(output)) else Strip(output))
    {
      var text := Strip(output);
      if text == [] {
        return None, None;
      }
      text := Flattened(textOnlySave, text);
      offered := Some(DefaultSaveFilename(timestamp));
      write := None;
      if chosenPath != [] {
        write := Some(FileWrite(chosenPath, text));
      }
    }
  }

  // ---- Runs of the application ----

  /**
   * Auto-save looks for an empty transcript before flattening it: a transcript
   * that is only the banner is saved, and with text-only saving (the default)
   * the file written is empty.
   */
  method BannerOnlyAutoSave(outputDir: string, audioPath: string, lang: string, timestamp: string)
    returns (write: Option<FileWrite>)
    requires '\n' !in lang
    ensures write == Some(FileWrite(PathJoin(outputDir, AutoSaveFilename(audioPath, timestamp)), []))
  {
    var app := new TranscriberApp(outputDir);
    BannerOnlyFlattensToNothing(lang);
    write := app.AutoSaveResult(audioPath, Banner(lang), timestamp, true);
  }

  /**
   * The file field can be edited while a job runs: the recogniser is still
   * asked for the file the job was started with, and the auto-save is named
   * after that file, not after what the field holds by then.
   */
  method EditDuringJob(outputDir: string, audioPath: string, editedPath: string,
                       result: RecognitionResult, elapsedTenths: nat, timestamp: string)
    returns (call: Option<RecognizerCall>, write: Option<FileWrite>)
    requires audioPath != []
    ensures call.Some? && call.value.audioPath == audioPath
    ensures write.Some? && write.value.path == PathJoin(outputDir, AutoSaveFilename(audioPath, timestamp))
  {
    var app, pending;
    app, call, pending := EditedJob(outputDir, audioPath, editedPath, result, elapsedTenths);
    write := app.AutoSaveResult(pending.audioPath, pending.text, timestamp, true);
  }

  /** The job of `EditDuringJob` up to its pending auto-save. */
  method EditedJob(outputDir: string, audioPath: string, editedPath: string,
                   result: RecognitionResult, elapsedTenths: nat)
    returns (app: TranscriberApp, call: Option<RecognizerCall>, pending: PendingSave)
    requires audioPath != []
    ensures fresh(app) && app.Valid() && app.outputDir == outputDir && app.filePath == editedPath
    ensures call.Some? && call.value.audioPath == audioPath
    ensures pending.audioPath == audioPath && pending.text != []
  {
    var job;
    app, job := StartThenEdit(outputDir, audioPath, editedPath);
    var p;
    call, p := app.PerformTranscription(job, true, 0, Some(result), elapsedTenths);
    assert |Banner(DetectedLanguage(result))| > 0;
    pending := p.value;
  }

  /** A job started for `audioPath`, after which the file field is edited to `editedPath`. */
  method StartThenEdit(outputDir: string, audioPath: string, editedPath: string)
    returns (app: TranscriberApp, job: Job)
    requires audioPath != []
    ensures fresh(app) && app.Valid() && app.outputDir == outputDir && app.filePath == editedPath
    ensures app.autoSave && !app.timestamps && job.filePath == audioPath
  {
    app := new TranscriberApp(outputDir);
    app.filePath := audioPath;
    var outcome := app.StartTranscription(true);
    app.filePath := editedPath;
    job := outcome.job;
  }

  /**
   * A job whose model load fails: the button comes back, no transcript is
   * shown, and no model is kept, so the next job loads again. Whatever the
   * recogniser would answer is never asked for.
   */
  method JobWithFailedLoad(outputDir: string, job: Job, recognition: Option<RecognitionResult>, elapsedTenths: nat)
    returns (app: TranscriberApp, call: Option<RecognizerCall>)
    ensures call.None? && app.buttonEnabled && app.model.None? && app.output == []
    ensures app.shown == [Ready, LoadingModel("medium"), ModelLoadFailed]
  {
    app := new TranscriberApp(outputDir);
    app.buttonEnabled := false;
    var pending;
    call, pending := app.PerformTranscription(job, false, 0, recognition, elapsedTenths);
  }

  /**
   * Two jobs in a row, each with a language: the first loads the model, the
   * second reuses it and shows no loading status.
   */
  method TwoJobsLoadOnce(outputDir: string, job: Job, loadTenths: nat,
                         first: RecognitionResult, second: RecognitionResult, t1: nat, t2: nat)
    returns (app: TranscriberApp)
    requires job.language.Some?
    ensures app.model == Some(Model("medium")) && app.buttonEnabled
    ensures app.shown == [Ready, LoadingModel("medium"), ModelLoaded(loadTenths),
                          Transcribing, Finished(t1, DetectedLanguage(first)),
                          Transcribing, Finished(t2, DetectedLanguage(second))]
    ensures app.output == Render(second, false)
  {
    app := new TranscriberApp(outputDir);
    var o1, p1 := app.PerformTranscription(job, true, loadTenths, Some(first), t1);
    var o2, p2 := app.PerformTranscription(job, true, loadTenths, Some(second), t2);
  }
}

=== FILE: output_names.dfy ===
/**
 * The names of saved transcripts: the auto-save name built from the audio
 * file's name (`auto_save_result`), the name offered by the save dialog
 * (`save_to_file`), and the POSIX path operations they use.
 */
module OutputNames {
  import opened Wrappers

  /** The index of the last `c` in `s`, like `str.rfind` but with no `-1`. */
  function LastIndex(s: string, c: char): (r: Option<nat>)
    ensures r.Some? ==> r.value < |s| && s[r.value] == c && c !in s[r.value + 1..]
    ensures r.None? ==> c !in s
  {
    if s == [] then None
    else if s[|s| - 1] == c then Some(|s| - 1)
    else
      var r := LastIndex(s[..|s| - 1], c);
      assert s[..|s| - 1] + [s[|s| - 1]] == s;
      if r.Some? then
        assert s[r.value + 1..] == s[..|s| - 1][r.value + 1..] + [s[|s| - 1]];
        r
      else r
  }

  /** `os.path.basename` with `/` as the only separator: what follows the last `/`. */
  function Basename(path: string): (name: string)
    ensures '/' !in name
    ensures |name| <= |path| && path[|path| - |name|..] == name
    ensures |name| < |path| ==> path[|path| - |name| - 1] == '/'
  {
    match LastIndex(path, '/')
    case None => path
    case Some(i) => path[i + 1..]
  }

  /**
   * `os.path.splitext` on a name without `/`: the extension runs from the
   * last `.` to the end, unless every character before that `.` is also a
   * `.` (as in `.bashrc`), in which case there is no extension.
   */
  function SplitExt(name: string): (parts: (string, string))
    ensures parts.0 + parts.1 == name
    ensures parts.1 != [] ==> parts.1[0] == '.' && '.' !in parts.1[1..]
    ensures parts.1 != [] ==> exists i :: 0 <= i < |parts.0| && parts.0[i] != '.'
    ensures parts.1 == [] ==> '.' !in name || forall i :: 0 <= i < LastIndex(name, '.').value ==> name[i] == '.'
  {
    match LastIndex(name, '.')
    case None => (name, "")
    case Some(d) =>
      if exists i :: 0 <= i < d && name[i] != '.' then (name[..d], name[d..])
      else (name, "")
  }

  /** The audio file's name without its directory and extension. */
  function AudioStem(audioPath: string): string {
    SplitExt(Basename(audioPath)).0
  }

  /** The auto-save file name: the audio stem, `_`, the timestamp, and `.txt`. */
  function AutoSaveFilename(audioPath: string, timestamp: string): string {
    AudioStem(audioPath) + "_" + timestamp + ".txt"
  }

  /** The file name the save dialog offers. */
  function DefaultSaveFilename(timestamp: string): string {
    "transcription_" + timestamp + ".txt"
  }

  /**
   * `os.path.join` of a directory and one name: an absolute name replaces the
   * directory; otherwise a `/` is put between them unless the directory is
   * empty or already ends with one.
   */
  function PathJoin(dir: string, name: string): (path: string)
    ensures |name| <= |path| && path[|path| - |name|..] == name
    ensures |name| > 0 && name[0] == '/' ==> path == name
    ensures !(|name| > 0 && name[0] == '/') ==>
      (path == dir + name <==> dir == [] || dir[|dir| - 1] == '/') &&
      (path == dir + name || path == dir + "/" + name)
  {
    if |name| > 0 && name[0] == '/' then name
    else if dir == [] || dir[|dir| - 1] == '/' then dir + name
    else dir + "/" + name
  }

  // ---- Properties ----

  /** The stem followed by the extension gives back the audio file's name. */
  lemma StemAndExtension(audioPath: string)
    ensures var name := Basename(audioPath);
      |AudioStem(audioPath)| <= |name| && name[..|AudioStem(audioPath)|] == AudioStem(audioPath)
  {
    var name := Basename(audioPath);
    var parts := SplitExt(name);
    assert name == parts.0 + parts.1;
  }

  /** A joined path's last component is the name, when the name has no `/`. */
  lemma BasenameOfJoin(dir: string, name: string)
    requires '/' !in name
    ensures Basename(PathJoin(dir, name)) == name
  {
    if dir == [] {
      assert PathJoin(dir, name) == name;
    } else if dir[|dir| - 1] == '/' {
      var parent := dir[..|dir| - 1];
      assert PathJoin(dir, name) == parent + "/" + name;
      BasenameAfterSlash(parent, name);
    } else {
      BasenameAfterSlash(dir, name);
    }
  }

  /**
   * The auto-save file lands in the output directory under its name: the
   * joined path starts with the directory, and its last component is the
   * name when the timestamp has no `/`.
   */
  lemma AutoSaveLandsInDirectory(dir: string, audioPath: string, timestamp: string)
    ensures var p := PathJoin(dir, AutoSaveFilename(audioPath, timestamp));
      |dir| <= |p| && p[..|dir|] == dir
    ensures '/' !in timestamp ==>
      Basename(PathJoin(dir, AutoSaveFilename(audioPath, timestamp))) == AutoSaveFilename(audioPath, timestamp)
  {
    AutoSaveNameRelative(audioPath, timestamp);
    JoinUnder(dir, AutoSaveFilename(audioPath, timestamp));
    if '/' !in timestamp {
      AutoSaveNameLast(dir, audioPath, timestamp);
    }
  }

  /** With a `/`-free timestamp the auto-save name is the joined path's last component. */
  lemma AutoSaveNameLast(dir: string, audioPath: string, timestamp: string)
    requires '/' !in timestamp
    ensures Basename(PathJoin(dir, AutoSaveFilename(audioPath, timestamp))) == AutoSaveFilename(audioPath, timestamp)
  {
    var stem := AudioStem(audioPath);
    StemAndExtension(audioPath);
    assert forall i :: 0 <= i < |stem| ==> stem[i] == Basename(audioPath)[i];
    BasenameOfJoin(dir, AutoSaveFilename(audioPath, timestamp));
  }

  /** The auto-save name is never absolute: it starts with the stem of a `/`-free name, or with `_`. */
  lemma AutoSaveNameRelative(audioPath: string, timestamp: string)
    ensures var f := AutoSaveFilename(audioPath, timestamp); |f| > 0 && f[0] != '/'
  {
    var stem := AudioStem(audioPath);
    var f := AutoSaveFilename(audioPath, timestamp);
    StemAndExtension(audioPath);
    if stem != [] {
      assert f[0] == stem[0] == Basename(audioPath)[0];
    } else {
      assert f[0] == '_';
    }
  }

  /** A relative name joined to a directory stays under that directory. */
  lemma JoinUnder(dir: string, name: string)
    requires !(|name| > 0 && name[0] == '/')
    ensures var p := PathJoin(dir, name); |dir| <= |p| && p[..|dir|] == dir
  {
    if PathJoin(dir, name) == dir + name {
      assert (dir + name)[..|dir|] == dir;
    } else {
      assert (dir + "/" + name)[..|dir|] == dir;
    }
  }

  /** The last `c` of `a + [c] + b` is the one after `a` when `b` has none. */
  lemma LastIndexAfter(a: string, c: char, b: string)
    requires c !in b
    ensures LastIndex(a + [c] + b, c) == Some(|a|)
  {
    var s := a + [c] + b;
    var r := LastIndex(s, c);
    assert s[|a|] == c;
    if r.value < |a| {
      assert false;
    } else if r.value > |a| {
      assert false;
    }
  }

  /** The name after the last `/` of a path. */
  lemma BasenameAfterSlash(dir: string, name: string)
    requires '/' !in name
    ensures Basename(dir + "/" + name) == name
  {
    LastIndexAfter(dir, '/', name);
    assert (dir + "/" + name)[|dir| + 1..] == name;
  }

  /** A dotless extension after a stem that is not all dots is split off. */
  lemma SplitExtAtDot(stem: string, ext: string)
    requires '.' !in ext
    requires exists i :: 0 <= i < |stem| && stem[i] != '.'
    ensures SplitExt(stem + "." + ext) == (stem, "." + ext)
  {
    var name := stem + "." + ext;
    LastIndexAfter(stem, '.', ext);
    var i :| 0 <= i < |stem| && stem[i] != '.';
    assert name[i] == stem[i];
    assert name[..|stem|] == stem && name[|stem|..] == "." + ext;
  }

  /**
   * The stem of `<dir>/<stem>.<ext>` is `<stem>` when the extension has no
   * dot and the stem is not all dots: `/recordings/interview.wav` gives
   * `interview`.
   */
  lemma StemOf(dir: string, stem: string, ext: string)
    requires '/' !in stem && '/' !in ext && '.' !in ext
    requires exists i :: 0 <= i < |stem| && stem[i] != '.'
    ensures AudioStem(dir + "/" + stem + "." + ext) == stem
  {
    var name := stem + "." + ext;
    assert dir + "/" + stem + "." + ext == dir + "/" + name;
    assert '/' !in name by {
      assert forall k :: 0 <= k < |name| ==> name[k] == (if k < |stem| then stem[k] else if k == |stem| then '.' else ext[k - |stem| - 1]);
    }
    BasenameAfterSlash(dir, name);
    SplitExtAtDot(stem, ext);
  }

  /** Such a recording is saved as `<stem>_<timestamp>.txt`. */
  lemma AutoSaveNameOf(dir: string, stem: string, ext: string, timestamp: string)
    requires '/' !in stem && '/' !in ext && '.' !in ext
    requires exists i :: 0 <= i < |stem| && stem[i] != '.'
    ensures AutoSaveFilename(dir + "/" + stem + "." + ext, timestamp) == stem + "_" + timestamp + ".txt"
  {
    StemOf(dir, stem, ext);
  }

  /**
   * A name whose only dot leads it has no extension: `/tmp/.wav` keeps
   * `.wav` as its stem and is saved as `.wav_<timestamp>.txt`.
   */
  lemma HiddenFileName(dir: string, ext: string, timestamp: string)
    requires '/' !in ext && '.' !in ext
    ensures AutoSaveFilename(dir + "/." + ext, timestamp) == "." + ext + "_" + timestamp + ".txt"
  {
    var name := "." + ext;
    assert dir + "/." + ext == dir + "/" + name;
    assert '/' !in name by {
      assert forall k :: 0 <= k < |name| ==> name[k] == (if k == 0 then '.' else ext[k - 1]);
    }
    BasenameAfterSlash(dir, name);
    LastIndexAfter("", '.', ext);
    assert "" + "." + ext == name;
    assert SplitExt(name) == (name, "");
  }
}

=== FILE: py_text.dfy ===
/**
 * The few Python `str` built-ins that the transcript code relies on:
 * `strip`, `startswith`, the `in` substring test, `split` and `join`.
 * Strings are sequences of Unicode scalar values. A Python 3 `str` can also
 * hold lone surrogates (from `surrogateescape` decoding, say); the model
 * excludes them.
 */
module PyText {
  import opened Wrappers

  /** Python's `str.isspace` for one character: the characters `str.strip()` removes. */
  predicate IsSpace(c: char) {
    c == ' ' || ('\t' <= c <= '\r') || ('\U{1C}' <= c <= '\U{1F}') ||
    c == '\U{85}' || c == '\U{A0}' || c == '\U{1680}' ||
    ('\U{2000}' <= c <= '\U{200A}') || c == '\U{2028}' || c == '\U{2029}' ||
    c == '\U{202F}' || c == '\U{205F}' || c == '\U{3000}'
  }

  /** `s.lstrip()`: the longest suffix of `s` that does not start with whitespace. */
  function TrimLeft(s: string): (r: string)
    ensures |r| <= |s| && r == s[|s| - |r|..]
    ensures forall i :: 0 <= i < |s| - |r| ==> IsSpace(s[i])
    ensures r == [] || !IsSpace(r[0])
  {
    if s == [] || !IsSpace(s[0]) then s else TrimLeft(s[1..])
  }

  /** `s.rstrip()`: the longest prefix of `s` that does not end with whitespace. */
  function TrimRight(s: string): (r: string)
    ensures |r| <= |s| && r == s[..|r|]
    ensures forall i :: |r| <= i < |s| ==> IsSpace(s[i])
    ensures r == [] || !IsSpace(r[|r| - 1])
  {
    if s == [] || !IsSpace(s[|s| - 1]) then s else TrimRight(s[..|s| - 1])
  }

  /**
   * `s.strip()`: the slice of `s` left once leading and trailing whitespace
   * are removed; it is empty exactly when `s` is all whitespace.
   */
  function Strip(s: string): (r: string)
    ensures r == [] || (!IsSpace(r[0]) && !IsSpace(r[|r| - 1]))
    ensures var k := |s| - |TrimLeft(s)|;
      k + |r| <= |s| && r == s[k..k + |r|] &&
      (forall i :: 0 <= i < k ==> IsSpace(s[i])) &&
      (forall i :: k + |r| <= i < |s| ==> IsSpace(s[i]))
  {
    TrimRight(TrimLeft(s))
  }

  /** `s.startswith(c)` for a one-character prefix. */
  predicate StartsWith(s: string, c: char) {
    |s| > 0 && s[0] == c
  }

  /** `p` occurs in `s` starting at index `k`. */
  predicate OccursAt(s: string, p: string, k: int) {
    0 <= k && k + |p| <= |s| && s[k..k + |p|] == p
  }

  /**
   * The index of the first occurrence of `p` in `s`, if any: where
   * `s.split(p, 1)` cuts `s`, so `s.split(p, 1)[1]` is what follows it.
   */
  function FindFirst(s: string, p: string): (r: Option<nat>)
    ensures r.Some? ==> OccursAt(s, p, r.value)
    ensures r.Some? ==> forall j :: 0 <= j < r.value ==> !OccursAt(s, p, j)
    ensures r.None? ==> forall j :: !OccursAt(s, p, j)
    decreases |s|
  {
    if |s| < |p| then None
    else if s[..|p|] == p then Some(0)
    else
      ShiftOccurrence(s, p);
      assert !OccursAt(s, p, 0);
      match FindFirst(s[1..], p)
      case None => None
      case Some(k) => Some(k + 1)
  }

  lemma ShiftOccurrence(s: string, p: string)
    requires |s| > 0
    ensures forall j :: 1 <= j ==> (OccursAt(s, p, j) <==> OccursAt(s[1..], p, j - 1))
  {
    forall j | 1 <= j
      ensures OccursAt(s, p, j) <==> OccursAt(s[1..], p, j - 1)
    {
      if j + |p| <= |s| {
        var t, u := s[1..][j - 1..j - 1 + |p|], s[j..j + |p|];
        assert forall i :: 0 <= i < |p| ==> t[i] == u[i];
        assert t == u;
      }
    }
  }

  /** The substring test `p in s`. */
  predicate Contains(s: string, p: string)
  {
    FindFirst(s, p).Some?
  }

  /** `s.split(sep)` for a one-character separator: never empty, and no piece holds `sep`. */
  function Split(s: string, sep: char): (parts: seq<string>)
    ensures |parts| >= 1
    ensures forall i :: 0 <= i < |parts| ==> sep !in parts[i]
  {
    if s == [] then [[]]
    else
      var rest := Split(s[1..], sep);
      if s[0] == sep then [[]] + rest else [[s[0]] + rest[0]] + rest[1..]
  }

  /** `sep.join(parts)`. */
  function Join(parts: seq<string>, sep: string): string
  {
    if |parts| == 0 then []
    else if |parts| == 1 then parts[0]
    else parts[0] + sep + Join(parts[1..], sep)
  }

  // ---- Properties of split and join ----

  /** Joining the pieces of `s.split(c)` with `c` gives back `s`. */
  lemma {:induction false} SplitThenJoin(s: string, c: char)
    ensures Join(Split(s, c), [c]) == s
  {
    if s != [] {
      SplitThenJoin(s[1..], c);
      var rest := Split(s[1..], c);
      if s[0] != c && |rest| > 1 {
        assert Join(rest, [c]) == rest[0] + [c] + Join(rest[1..], [c]);
      }
    }
  }

  /** Splitting at a separator splits each side independently. */
  lemma {:induction false} SplitAround(a: string, b: string, c: char)
    ensures Split(a + [c] + b, c) == Split(a, c) + Split(b, c)
  {
    if a == [] {
      assert a + [c] + b == [c] + b;
      SplitCons(c, b, c);
      assert Split(a, c) == [[]];
    } else {
      SplitAround(a[1..], b, c);
      var t := a[1..] + [c] + b;
      assert [a[0]] + t == a + [c] + b && [a[0]] + a[1..] == a;
      SplitCons(a[0], t, c);
      SplitCons(a[0], a[1..], c);
      PiecesAppend(a[0] == c, a[0], Split(a[1..], c), Split(b, c));
    }
  }

  /** `split` of a string with one more character in front. */
  lemma SplitCons(ch: char, t: string, c: char)
    ensures Split([ch] + t, c) ==
      if ch == c then [[]] + Split(t, c) else [[ch] + Split(t, c)[0]] + Split(t, c)[1..]
  {
    assert ([ch] + t)[0] == ch && ([ch] + t)[1..] == t;
  }

  /** The list surgery of `SplitCons` commutes with appending more pieces. */
  lemma PiecesAppend(isSep: bool, ch: char, x: seq<string>, y: seq<string>)
    requires |x| >= 1
    ensures isSep ==> [[]] + (x + y) == ([[]] + x) + y
    ensures !isSep ==> [[ch] + (x + y)[0]] + (x + y)[1..] == ([[ch] + x[0]] + x[1..]) + y
  {
    assert (x + y)[0] == x[0] && (x + y)[1..] == x[1..] + y;
  }

  /** A string without the separator is a single piece. */
  lemma {:induction false} SplitWithoutSeparator(s: string, c: char)
    requires c !in s
    ensures Split(s, c) == [s]
  {
    if s != [] {
      SplitWithoutSeparator(s[1..], c);
      assert s == [s[0]] + s[1..];
    }
  }

  /** Splitting pieces joined with a separator they do not contain gives back the pieces. */
  lemma {:induction false} JoinThenSplit(parts: seq<string>, c: char)
    requires |parts| >= 1
    requires forall i :: 0 <= i < |parts| ==> c !in parts[i]
    ensures Split(Join(parts, [c]), c) == parts
  {
    SplitWithoutSeparator(parts[0], c);
    if |parts| > 1 {
      JoinThenSplit(parts[1..], c);
      SplitAround(parts[0], Join(parts[1..], [c]), c);
      assert parts == [parts[0]] + parts[1..];
    }
  }

  /** A character absent from every piece and from the separator is absent from the join. */
  lemma {:induction false} JoinAvoids(parts: seq<string>, sep: string, c: char)
    requires c !in sep
    requires forall i :: 0 <= i < |parts| ==> c !in parts[i]
    ensures c !in Join(parts, sep)
  {
    if |parts| > 1 {
      JoinAvoids(parts[1..], sep, c);
    }
  }

  // ---- Properties of strip and substring search ----

  /** A string with no whitespace at either end is its own `strip()`. */
  lemma StripStripped(s: string)
    requires s == [] || (!IsSpace(s[0]) && !IsSpace(s[|s| - 1]))
    ensures Strip(s) == s
  {
  }

  /** `strip()` is idempotent. */
  lemma StripIdempotent(s: string)
    ensures Strip(Strip(s)) == Strip(s)
  {
    StripStripped(Strip(s));
  }

  /** A string that starts with a non-space keeps its first character under `strip()`. */
  lemma StripKeepsFirst(s: string)
    requires |s| > 0 && !IsSpace(s[0])
    ensures |Strip(s)| > 0 && Strip(s)[0] == s[0]
  {
    assert TrimLeft(s) == s;
  }

  /** An occurrence anywhere means `p in s`. */
  lemma OccurrenceContains(s: string, p: string, k: int)
    requires OccursAt(s, p, k)
    ensures Contains(s, p)
  {
  }

  /** The first occurrence of `p` in `a + p + b` is right after `a` when `a` lacks `p`'s first character. */
  lemma FindFirstAfter(a: string, p: string, b: string)
    requires |p| > 0 && p[0] !in a
    ensures FindFirst(a + p + b, p) == Some(|a|)
  {
    var s := a + p + b;
    assert s[|a|..|a| + |p|] == p;
    assert OccursAt(s, p, |a|);
  }

  /** An occurrence of `m` in `a + b` lies in `b` when `a` lacks `m`'s first character. */
  lemma ConcatOccurrence(a: string, b: string, m: string)
    requires |m| > 0 && m[0] !in a && Contains(a + b, m)
    ensures Contains(b, m)
  {
    var s := a + b;
    var k := FindFirst(s, m).value;
    if k < |a| {
      assert false;
    }
    var u, v := s[k..k + |m|], b[k - |a|..k - |a| + |m|];
    assert forall x :: 0 <= x < |m| ==> u[x] == v[x];
    OccurrenceContains(b, m, k - |a|);
  }

  /** `m` is not in `s` when its first character is not. */
  lemma AbsentFirst(s: string, m: string)
    requires |m| > 0 && m[0] !in s
    ensures !Contains(s, m)
  {
    if Contains(s, m) {
      assert false;
    }
  }
}

=== FILE: time_format.dfy ===
/**
 * `format_time`: an offset into the audio rendered as hours, minutes and
 * seconds. The offset is a whole number of hundredths of a second, so the
 * float arithmetic of `format_time` is replaced by exact integer division.
 */
module TimeFormat {
  import opened Wrappers
  import opened PyText

  predicate IsDigit(c: char) {
    '0' <= c <= '9'
  }

  predicate AllDigits(s: string) {
    forall i :: 0 <= i < |s| ==> IsDigit(s[i])
  }

  function DigitChar(d: nat): (c: char)
    requires d < 10
    ensures IsDigit(c)
  {
    ('0' as int + d) as char
  }

  /** `str(n)`: the decimal digits of `n`, with no leading zero. */
  function Decimal(n: nat): string
  {
    if n < 10 then [DigitChar(n)] else Decimal(n / 10) + [DigitChar(n % 10)]
  }

  /** `f"{n:02d}"`: the decimal digits of `n`, left-padded with zeros to width two. */
  function Pad2(n: nat): string
  {
    if n < 10 then "0" + Decimal(n) else Decimal(n)
  }

  /** `f"{s:.2f}"` for `s == sec / 100`: whole seconds, a point, two digits of hundredths. */
  function Seconds(sec: nat): (r: string)
  {
    Decimal(sec / 100) + "." + Pad2(sec % 100)
  }

  /**
   * `format_time(seconds)` for `seconds == cs / 100`: hours and minutes are
   * padded to two digits; the seconds are written as `S.ff` with `S` NOT
   * padded, so four seconds into the audio reads `00:00:4.00`.
   */
  function FormatTime(cs: nat): (r: string)
  {
    Pad2(cs / 360000) + ":" + Pad2(cs / 6000 % 60) + ":" + Seconds(cs % 6000)
  }

  /** `str(n)` is one or more digits, without a leading zero, and one digit exactly below 10. */
  lemma {:induction false} DecimalShape(n: nat)
    ensures |Decimal(n)| >= 1 && AllDigits(Decimal(n))
    ensures (Decimal(n)[0] == '0') <==> n == 0
    ensures |Decimal(n)| == 1 <==> n < 10
    ensures n < 100 ==> |Decimal(n)| <= 2
  {
    if n >= 10 {
      DecimalShape(n / 10);
    }
  }

  /** `{n:02d}` is at least two digits, and exactly two below 100. */
  lemma Pad2Shape(n: nat)
    ensures |Pad2(n)| >= 2 && AllDigits(Pad2(n))
    ensures n < 100 ==> |Pad2(n)| == 2
  {
    DecimalShape(n);
  }

  lemma SecondsChars(sec: nat)
    ensures forall c :: c in Seconds(sec) ==> IsDigit(c) || c == '.'
  {
    DecimalShape(sec / 100);
    Pad2Shape(sec % 100);
  }

  /** `format_time` writes only digits, colons and one point. */
  lemma FormatTimeChars(cs: nat)
    ensures forall c :: c in FormatTime(cs) ==> IsDigit(c) || c == ':' || c == '.'
  {
    Pad2Shape(cs / 360000);
    Pad2Shape(cs / 6000 % 60);
    SecondsChars(cs % 6000);
  }

  // ---- Reading a time back: the reference the format is checked against ----

  /** The number a string of decimal digits denotes (leading zeros allowed). */
  function DigitsValue(s: string): nat
    requires AllDigits(s)
  {
    if s == [] then 0 else DigitsValue(s[..|s| - 1]) * 10 + (s[|s| - 1] as int - '0' as int)
  }

  /** Reads `S.ff` back into hundredths: whole seconds below 60 and exactly two digits after the point. */
  function ParseSeconds(s: string): Option<nat>
  {
    SecondsFields(Split(s, '.'))
  }

  function SecondsFields(p: seq<string>): Option<nat>
  {
    if |p| != 2 || !AllDigits(p[0]) || !AllDigits(p[1]) || |p[0]| < 1 || |p[1]| != 2 then None
    else if DigitsValue(p[0]) >= 60 then None
    else Some(DigitsValue(p[0]) * 100 + DigitsValue(p[1]))
  }

  /** Reads `HH:MM:S.ff` back into hundredths: at least two hour digits and exactly two minute digits below 60. */
  function ParseTime(s: string): Option<nat>
  {
    ClockFields(Split(s, ':'))
  }

  function ClockFields(p: seq<string>): Option<nat>
  {
    if |p| != 3 || !AllDigits(p[0]) || !AllDigits(p[1]) || |p[0]| < 2 || |p[1]| != 2 then None
    else if DigitsValue(p[1]) >= 60 then None
    else
      match ParseSeconds(p[2])
      case None => None
      case Some(x) => Some(DigitsValue(p[0]) * 360000 + DigitsValue(p[1]) * 6000 + x)
  }

  lemma {:induction false} DecimalValue(n: nat)
    ensures AllDigits(Decimal(n)) && DigitsValue(Decimal(n)) == n
  {
    DecimalShape(n);
    if n >= 10 {
      DecimalValue(n / 10);
      var r := Decimal(n);
      assert r[..|r| - 1] == Decimal(n / 10);
    }
  }

  lemma {:induction false} LeadingZeroValue(s: string)
    requires AllDigits(s)
    ensures DigitsValue("0" + s) == DigitsValue(s)
  {
    if s != [] {
      LeadingZeroValue(s[..|s| - 1]);
      assert ("0" + s)[..|s|] == "0" + s[..|s| - 1];
    }
  }

  /** Reading a padded field gives back its number. */
  lemma Pad2Value(n: nat)
    ensures AllDigits(Pad2(n)) && DigitsValue(Pad2(n)) == n
  {
    Pad2Shape(n);
    DecimalValue(n);
    if n < 10 {
      LeadingZeroValue(Decimal(n));
    }
  }

  lemma TimeArithmetic(cs: nat)
    ensures (cs / 360000) * 360000 + (cs / 6000 % 60) * 6000 + (cs % 6000 / 100) * 100 + cs % 6000 % 100 == cs
  {
    var q, r := cs / 6000, cs % 6000;
    assert cs == q * 6000 + r;
    assert q == (q / 60) * 60 + q % 60;
    assert q / 60 == cs / 360000;
    assert r == (r / 100) * 100 + r % 100;
  }

  /** The seconds field reads back as the hundredths it was written from. */
  lemma SecondsRoundTrip(sec: nat)
    requires sec < 6000
    ensures ParseSeconds(Seconds(sec)) == Some(sec)
  {
    var ss, ff := Decimal(sec / 100), Pad2(sec % 100);
    DecimalShape(sec / 100);
    Pad2Shape(sec % 100);
    assert [ss, ff][1..] == [ff];
    assert Seconds(sec) == Join([ss, ff], ".");
    JoinThenSplit([ss, ff], '.');
    DecimalValue(sec / 100);
    Pad2Value(sec % 100);
  }

  lemma ClockSplit(hh: string, mm: string, ss: string)
    requires AllDigits(hh) && AllDigits(mm) && ':' !in ss
    ensures Split(hh + ":" + mm + ":" + ss, ':') == [hh, mm, ss]
  {
    assert [hh, mm, ss][1..] == [mm, ss];
    assert [mm, ss][1..] == [ss];
    assert Join([mm, ss], ":") == mm + ":" + ss;
    assert hh + ":" + mm + ":" + ss == Join([hh, mm, ss], ":");
    assert ':' !in hh && ':' !in mm;
    JoinThenSplit([hh, mm, ss], ':');
  }

  /** Fields joined with colons read back field by field. */
  lemma ParseClock(hh: string, mm: string, ss: string)
    requires AllDigits(hh) && AllDigits(mm) && |hh| >= 2 && |mm| == 2 && DigitsValue(mm) < 60
    requires ':' !in ss && ParseSeconds(ss).Some?
    ensures ParseTime(hh + ":" + mm + ":" + ss) ==
      Some(DigitsValue(hh) * 360000 + DigitsValue(mm) * 6000 + ParseSeconds(ss).value)
  {
    ClockSplit(hh, mm, ss);
    assert ClockFields([hh, mm, ss]) ==
      Some(DigitsValue(hh) * 360000 + DigitsValue(mm) * 6000 + ParseSeconds(ss).value);
  }

  /**
   * Every time `format_time` writes reads back as the same number of
   * hundredths: the minutes and whole seconds it writes are below 60, the
   * hundredths are two digits, and hours, minutes and seconds add up to the
   * offset.
   */
  lemma FormatTimeRoundTrip(cs: nat)
    ensures ParseTime(FormatTime(cs)) == Some(cs)
  {
    var h, m, sec := cs / 360000, cs / 6000 % 60, cs % 6000;
    Pad2Shape(h);
    Pad2Shape(m);
    Pad2Value(h);
    Pad2Value(m);
    SecondsRoundTrip(sec);
    SecondsChars(sec);
    ParseClock(Pad2(h), Pad2(m), Seconds(sec));
    TimeArithmetic(cs);
  }

  /**
   * Below 100 hours the hours and minutes take two characters each, and the
   * seconds take four (`S.ff`) below ten whole seconds and five from there:
   * the whole seconds are not zero-padded.
   */
  lemma FormatTimeWidth(cs: nat)
    requires cs < 36000000
    ensures |FormatTime(cs)| == if cs % 6000 < 1000 then 10 else 11
  {
    var h, m, sec := cs / 360000, cs / 6000 % 60, cs % 6000;
    Pad2Shape(h);
    Pad2Shape(m);
    DecimalShape(sec / 100);
    Pad2Shape(sec % 100);
    assert h < 100 && sec / 100 < 60;
    assert sec < 1000 <==> sec / 100 < 10;
  }

  /** The seconds are not zero-padded: offsets as `format_time` renders them. */
  lemma FormatTimeStart()
    ensures FormatTime(0) == "00:00:0.00"
  {
    assert Decimal(0) == "0";
    assert Pad2(0) == "00";
  }

  lemma FormatTimeExample()
    ensures FormatTime(366105) == "01:01:1.05"
  {
    assert 366105 / 360000 == 1 && 366105 / 6000 % 60 == 1 && 366105 % 6000 == 105;
    assert Decimal(1) == "1" && Decimal(5) == "5";
    assert Pad2(1) == "01" && Pad2(5) == "05";
  }
}

=== FILE: transcript.dfy ===
/**
 * The transcript text of `perform_transcription` and `extract_text_only`:
 * rendering a recognition result with its detected-language banner, either
 * verbatim or as one `[start --> end] text` line per segment, and flattening
 * a rendered transcript back into one line of plain text.
 */
module Transcript {
  import opened Wrappers
  import opened PyText
  import opened TimeFormat

  /** One recognised span of speech; offsets are hundredths of a second into the audio. */
  datatype Segment = Segment(start: nat, end: nat, text: string)

  /**
   * The recogniser's result dictionary: the `"language"` key may be missing,
   * `"text"` is always there, and the `"segments"` key may be missing.
   */
  datatype RecognitionResult = RecognitionResult(
    language: Option<string>,
    text: string,
    segments: Option<seq<Segment>>)

  /** The words that mark the banner line ("detected language"). */
  const Marker: string := "検出された言語"

  /** The language shown when the result does not name one ("unknown"). */
  const UnknownLanguage: string := "不明"

  function DetectedLanguage(r: RecognitionResult): string {
    r.language.GetOr(UnknownLanguage)
  }

  /** `lang_info`: the banner line followed by one empty line. */
  function Banner(lang: string): string {
    Marker + ": " + lang + "\n\n"
  }

  /** The bracketed time span that opens a timestamped line. */
  function Stamp(seg: Segment): string {
    "[" + FormatTime(seg.start) + " --> " + FormatTime(seg.end)
  }

  /** One timestamped line, without its line break: the stamp, `"] "`, and the trimmed text. */
  function SegmentLine(seg: Segment): string {
    Stamp(seg) + "] " + Strip(seg.text)
  }

  /** The timestamped lines, one per segment, in segment order. */
  function SegmentLines(segs: seq<Segment>): (lines: seq<string>)
    ensures |lines| == |segs|
  {
    seq(|segs|, i requires 0 <= i < |segs| => SegmentLine(segs[i]))
  }

  /** Lines, each followed by an empty line. */
  function Terminated(lines: seq<string>): string {
    if lines == [] then "" else lines[0] + "\n\n" + Terminated(lines[1..])
  }

  /** The timestamped body; it is empty when the segment list is. */
  function TimestampedBody(segs: seq<Segment>): string {
    Terminated(SegmentLines(segs))
  }

  /**
   * The displayed transcript: the banner, then the timestamped body when
   * timestamps are on and the result has a `"segments"` key (even an empty
   * list), and otherwise the result's text exactly as the recogniser gave it.
   */
  function Render(r: RecognitionResult, timestamps: bool): (out: string)
    ensures var b := Banner(DetectedLanguage(r)); |b| <= |out| && out[..|b|] == b
    ensures !timestamps || r.segments.None? ==> out[|Banner(DetectedLanguage(r))|..] == r.text
  {
    Banner(DetectedLanguage(r)) +
    (if timestamps && r.segments.Some? then TimestampedBody(r.segments.value) else r.text)
  }

  /** Terminating consecutive runs of lines concatenates their results. */
  lemma {:induction false} TerminatedAppend(a: seq<string>, b: seq<string>)
    ensures Terminated(a + b) == Terminated(a) + Terminated(b)
  {
    if a != [] {
      TerminatedAppend(a[1..], b);
      assert (a + b)[1..] == a[1..] + b;
    } else {
      assert a + b == b;
    }
  }

  /** One more segment appends its line and an empty line. */
  lemma TerminatedStep(lines: seq<string>, i: nat)
    requires i < |lines|
    ensures Terminated(lines[..i + 1]) == Terminated(lines[..i]) + lines[i] + "\n\n"
  {
    assert lines[..i + 1] == lines[..i] + [lines[i]];
    TerminatedAppend(lines[..i], [lines[i]]);
    assert [lines[i]][1..] == [];
  }

  /**
   * The loop of `perform_transcription` that appends one line per segment
   * with `output_text +=`.
   */
  method RenderTimestamped(segs: seq<Segment>) returns (out: string)
    ensures out == TimestampedBody(segs)
  {
    ghost var lines := SegmentLines(segs);
    out := "";
    for i := 0 to |segs|
      invariant out == Terminated(lines[..i])
    {
      var start := FormatTime(segs[i].start);
      var end := FormatTime(segs[i].end);
      var text := Strip(segs[i].text);
      var line := "[" + start + " --> " + end + "] " + text;
      assert line == SegmentLine(segs[i]);
      assert lines[i] == SegmentLine(segs[i]);
      TerminatedStep(lines, i);
      out := out + line + "\n\n";
    }
    assert lines[..|segs|] == lines;
  }

  // ---- Flattening a transcript into plain text ----

  /**
   * What one line contributes to the plain text: nothing for a banner line or
   * a blank line; for a line whose trimmed form opens with `[`, the trimmed
   * text after the first `"] "` when there is such text, and NOTHING at all
   * when the line lacks `"] "`; for any other line, the line trimmed.
   */
  function LineUnit(line: string): Option<string> {
    if Contains(line, Marker) then None
    else if StartsWith(Strip(line), '[') && Contains(line, "] ") then
      var textPart := Strip(line[FindFirst(line, "] ").value + 2..]);
      if textPart != [] then Some(textPart) else None
    else if Strip(line) != [] && !StartsWith(Strip(line), '[') then Some(Strip(line))
    else None
  }

  function Kept(u: Option<string>): seq<string> {
    if u.Some? then [u.value] else []
  }

  /** The units `unit` yields for each of the lines, in line order. */
  function Collect(lines: seq<string>, unit: string -> Option<string>): seq<string> {
    if lines == [] then [] else Kept(unit(lines[0])) + Collect(lines[1..], unit)
  }

  /** The units of consecutive runs of lines are the concatenation of their units. */
  lemma {:induction false} CollectAppend(a: seq<string>, b: seq<string>, unit: string -> Option<string>)
    ensures Collect(a + b, unit) == Collect(a, unit) + Collect(b, unit)
  {
    if a != [] {
      CollectAppend(a[1..], b, unit);
      assert (a + b)[1..] == a[1..] + b;
    } else {
      assert a + b == b;
    }
  }

  /** The units of a list of lines. */
  function Units(lines: seq<string>): seq<string> {
    Collect(lines, LineUnit)
  }

  /** The units of a text: those of its lines, split at each `'\n'`. */
  function TextUnits(text: string): seq<string> {
    Units(Split(text, '\n'))
  }

  /** The result of `extract_text_only`: the units of the text joined by single spaces. */
  function PlainText(text: string): string {
    Join(TextUnits(text), " ")
  }

  /** One more line adds its own unit, if any, after the units before it. */
  lemma CollectStep(lines: seq<string>, i: nat, unit: string -> Option<string>)
    requires i < |lines|
    ensures Collect(lines[..i + 1], unit) == Collect(lines[..i], unit) + Kept(unit(lines[i]))
  {
    assert lines[..i + 1] == lines[..i] + [lines[i]];
    CollectAppend(lines[..i], [lines[i]], unit);
    assert [lines[i]][1..] == [];
  }

  lemma UnitsStep(lines: seq<string>, i: nat)
    requires i < |lines|
    ensures Units(lines[..i + 1]) == Units(lines[..i]) + Kept(LineUnit(lines[i]))
  {
    CollectStep(lines, i, LineUnit);
  }

  /** `extract_text_only` as the source writes it: one pass over the lines, appending to `result_lines`. */
  method ExtractTextOnly(textWithTimestamps: string) returns (plain: string)
    ensures plain == PlainText(textWithTimestamps)
  {
    var lines := Split(textWithTimestamps, '\n');
    var resultLines: seq<string> := [];
    for i := 0 to |lines|
      invariant resultLines == Units(lines[..i])
    {
      var line := lines[i];
      UnitsStep(lines, i);
      if Contains(line, Marker) {
        continue;
      }
      if StartsWith(Strip(line), '[') && Contains(line, "] ") {
        var textPart := Strip(line[FindFirst(line, "] ").value + 2..]);
        if textPart != [] {
          resultLines := resultLines + [textPart];
        }
      } else if Strip(line) != [] && !StartsWith(Strip(line), '[') {
        resultLines := resultLines + [Strip(line)];
      }
    }
    assert lines[..|lines|] == lines;
    plain := Join(resultLines, " ");
  }
}

=== FILE: transcript_laws.dfy ===
/**
 * What `extract_text_only` does to a transcript: which lines it keeps and
 * what it keeps of them, that it undoes the timestamped rendering of
 * `perform_transcription`, and when applying it twice changes nothing.
 */
module TranscriptLaws {
  import opened Wrappers
  import opened PyText
  import opened TimeFormat
  import opened Transcript

  // ---- What one line contributes ----

  /** A line that mentions the banner words contributes nothing, whatever else it holds. */
  lemma BannerLineDropped(line: string)
    requires Contains(line, Marker)
    ensures LineUnit(line) == None
  {
  }

  /** An empty or all-whitespace line contributes nothing. */
  lemma BlankLineDropped(line: string)
    requires Strip(line) == []
    ensures LineUnit(line) == None
  {
  }

  /**
   * A line whose trimmed form opens with `[` but that has no `"] "` anywhere
   * is dropped entirely, even when it holds text (`"[note]"`, `"[a]b"`).
   */
  lemma UnclosedBracketDropped(line: string)
    requires StartsWith(Strip(line), '[') && !Contains(line, "] ")
    ensures LineUnit(line) == None
  {
  }

  /**
   * A bracketed line keeps the trimmed text after the FIRST `"] "`, and
   * nothing when that text is blank.
   */
  lemma BracketLineUnit(line: string, k: nat)
    requires !Contains(line, Marker) && StartsWith(Strip(line), '[')
    requires OccursAt(line, "] ", k)
    requires forall j :: 0 <= j < k ==> !OccursAt(line, "] ", j)
    ensures Strip(line[k + 2..]) != [] ==> LineUnit(line) == Some(Strip(line[k + 2..]))
    ensures Strip(line[k + 2..]) == [] ==> LineUnit(line) == None
  {
    assert Contains(line, "] ") by {
      OccurrenceContains(line, "] ", k);
    }
    assert FindFirst(line, "] ") == Some(k) by {
      var r := FindFirst(line, "] ");
      assert r.Some? && !(r.value < k) && !(k < r.value);
    }
  }

  /** Any other non-blank line is kept trimmed. */
  lemma PlainLineUnit(line: string)
    requires !Contains(line, Marker)
    requires Strip(line) != [] && !StartsWith(Strip(line), '[')
    ensures LineUnit(line) == Some(Strip(line))
  {
  }

  /** Every character of `Strip(s)` is a character of `s`. */
  lemma StripWithin(s: string)
    ensures forall c :: c in Strip(s) ==> c in s
  {
    var r, k := Strip(s), |s| - |TrimLeft(s)|;
    assert r == s[k..k + |r|];
    forall c | c in r
      ensures c in s
    {
      var i :| 0 <= i < |r| && r[i] == c;
      assert s[k + i] == c;
    }
  }

  /**
   * A kept unit is never empty, has no surrounding whitespace, and is made of
   * characters of its line.
   */
  lemma UnitShape(line: string)
    requires LineUnit(line).Some?
    ensures var u := LineUnit(line).value;
      u != [] && Strip(u) == u && forall c :: c in u ==> c in line
  {
    var u := LineUnit(line).value;
    if StartsWith(Strip(line), '[') && Contains(line, "] ") {
      var rest := line[FindFirst(line, "] ").value + 2..];
      assert u == Strip(rest);
      StripWithin(rest);
      StripIdempotent(rest);
      assert forall c :: c in rest ==> c in line;
    } else {
      assert u == Strip(line);
      StripWithin(line);
      StripIdempotent(line);
    }
  }

  // ---- Units of whole texts ----

  // The lemmas below hold for any way of turning a line into a unit; they are
  // stated over `Collect` so that their proofs never look inside `LineUnit`.

  lemma CollectOne(line: string, unit: string -> Option<string>)
    ensures Collect([line], unit) == Kept(unit(line))
  {
    assert [line][1..] == [];
  }

  /** Splitting a text at one line break splits its units there. */
  lemma CollectAround(a: string, b: string, unit: string -> Option<string>)
    ensures Collect(Split(a + "\n" + b, '\n'), unit) ==
            Collect(Split(a, '\n'), unit) + Collect(Split(b, '\n'), unit)
  {
    SplitAround(a, b, '\n');
    CollectAppend(Split(a, '\n'), Split(b, '\n'), unit);
  }

  /** A text without line breaks is one line. */
  lemma CollectLine(line: string, unit: string -> Option<string>)
    requires '\n' !in line
    ensures Collect(Split(line, '\n'), unit) == Kept(unit(line))
  {
    SplitWithoutSeparator(line, '\n');
    CollectOne(line, unit);
  }

  /** A line followed by an empty line and more text: the empty line contributes nothing. */
  lemma CollectParagraph(line: string, rest: string, unit: string -> Option<string>)
    requires '\n' !in line && unit("") == None
    ensures Collect(Split(line + "\n\n" + rest, '\n'), unit) ==
            Kept(unit(line)) + Collect(Split(rest, '\n'), unit)
  {
    var gap := "" + "\n" + rest;
    assert line + "\n\n" + rest == line + "\n" + gap;
    CollectAround(line, gap, unit);
    CollectAround("", rest, unit);
    CollectLine(line, unit);
    CollectLine("", unit);
    assert Collect(Split(gap, '\n'), unit) == Collect(Split(rest, '\n'), unit);
  }

  /** Lines without line breaks, each followed by an empty line, give back their own units. */
  lemma {:induction false} CollectTerminated(lines: seq<string>, unit: string -> Option<string>)
    requires forall i :: 0 <= i < |lines| ==> '\n' !in lines[i]
    requires unit("") == None
    ensures Collect(Split(Terminated(lines), '\n'), unit) == Collect(lines, unit)
  {
    if lines == [] {
      CollectLine("", unit);
    } else {
      CollectParagraph(lines[0], Terminated(lines[1..]), unit);
      CollectTerminated(lines[1..], unit);
    }
  }

  /** The empty text has no units. */
  lemma TextUnitsEmpty()
    ensures TextUnits("") == []
  {
    BlankLineDropped("");
    CollectLine("", LineUnit);
  }

  /** A line without line breaks contributes its own unit. */
  lemma TextUnitsOfLine(line: string)
    requires '\n' !in line
    ensures TextUnits(line) == Kept(LineUnit(line))
  {
    CollectLine(line, LineUnit);
  }

  /**
   * The banner and the empty line after it contribute nothing: the units of a
   * rendered transcript are those of its body.
   */
  lemma BannerIgnored(lang: string, body: string)
    requires '\n' !in lang
    ensures TextUnits(Banner(lang) + body) == TextUnits(body)
  {
    var head := BannerHead(lang);
    assert Banner(lang) + body == head + "\n\n" + body;
    BlankLineDropped("");
    CollectParagraph(head, body, LineUnit);
  }

  /** The banner's first line is one line and contributes nothing. */
  lemma BannerHead(lang: string) returns (head: string)
    requires '\n' !in lang
    ensures Banner(lang) == head + "\n\n" && '\n' !in head && LineUnit(head) == None
  {
    head := Marker + ": " + lang;
    assert OccursAt(head, Marker, 0);
    OccurrenceContains(head, Marker, 0);
    BannerLineDropped(head);
  }

  /** Timestamped lines give back their own units. */
  lemma TerminatedUnits(lines: seq<string>)
    requires forall i :: 0 <= i < |lines| ==> '\n' !in lines[i]
    ensures TextUnits(Terminated(lines)) == Units(lines)
  {
    BlankLineDropped("");
    CollectTerminated(lines, LineUnit);
  }

  /** When every line yields exactly the matching text, the units are those texts. */
  lemma {:induction false} AllKept(lines: seq<string>, texts: seq<string>)
    requires |lines| == |texts|
    requires forall i :: 0 <= i < |lines| ==> LineUnit(lines[i]) == Some(texts[i])
    ensures Units(lines) == texts
  {
    if lines != [] {
      AllKept(lines[1..], texts[1..]);
      assert texts == [texts[0]] + texts[1..];
    }
  }

  /** A character no line holds is in no unit, when no unit adds characters to its line. */
  lemma {:induction false} CollectAvoids(lines: seq<string>, unit: string -> Option<string>, c: char)
    requires forall i :: 0 <= i < |lines| ==> c !in lines[i]
    requires forall x :: c !in x && unit(x).Some? ==> c !in unit(x).value
    ensures forall i :: 0 <= i < |Collect(lines, unit)| ==> c !in Collect(lines, unit)[i]
  {
    if lines != [] {
      CollectAvoids(lines[1..], unit, c);
    }
  }

  /** A unit holds only characters of its line. */
  lemma UnitAvoids(c: char)
    ensures forall x :: c !in x && LineUnit(x).Some? ==> c !in LineUnit(x).value
  {
    forall x | c !in x && LineUnit(x).Some?
      ensures c !in LineUnit(x).value
    {
      UnitShape(x);
    }
  }

  /** `extract_text_only` always returns a single line. */
  lemma PlainTextIsOneLine(text: string)
    ensures '\n' !in PlainText(text)
  {
    UnitAvoids('\n');
    CollectAvoids(Split(text, '\n'), LineUnit, '\n');
    JoinAvoids(TextUnits(text), " ", '\n');
  }

  // ---- Round trip through the timestamped rendering ----

  /**
   * A line made of a stamp that opens with `[` and holds neither `]` nor the
   * first banner character, then `"] "`, then a trimmed non-empty text free of
   * the banner words, yields exactly that text.
   */
  lemma BracketLine(stamp: string, t: string)
    requires |stamp| > 0 && stamp[0] == '['
    requires ']' !in stamp && Marker[0] !in stamp
    requires t != [] && Strip(t) == t && !Contains(t, Marker)
    ensures LineUnit(stamp + "] " + t) == Some(t)
  {
    BracketLineOpens(stamp, t);
    BracketLineUnmarked(stamp, t);
    BracketLineCloses(stamp, t);
    BracketLineUnit(stamp + "] " + t, |stamp|);
  }

  /** Such a line, trimmed, still opens with `[`. */
  lemma BracketLineOpens(stamp: string, t: string)
    requires |stamp| > 0 && stamp[0] == '['
    ensures StartsWith(Strip(stamp + "] " + t), '[')
  {
    var line := stamp + "] " + t;
    assert line[0] == '[' && !IsSpace('[');
    StripKeepsFirst(line);
  }

  /** Its first `"] "` is the one after the stamp, and the text follows it. */
  lemma BracketLineCloses(stamp: string, t: string)
    requires ']' !in stamp
    ensures var line := stamp + "] " + t;
      OccursAt(line, "] ", |stamp|) && line[|stamp| + 2..] == t &&
      forall j :: 0 <= j < |stamp| ==> !OccursAt(line, "] ", j)
  {
    var line := stamp + "] " + t;
    FindFirstAfter(stamp, "] ", t);
    assert line[|stamp| + 2..] == t;
  }

  /** Such a line does not hold the banner words, since neither its stamp nor its text does. */
  lemma BracketLineUnmarked(stamp: string, t: string)
    requires Marker[0] !in stamp && !Contains(t, Marker)
    ensures !Contains(stamp + "] " + t, Marker)
  {
    if Contains(stamp + "] " + t, Marker) {
      assert stamp + "] " + t == stamp + ("] " + t);
      ConcatOccurrence(stamp, "] " + t, Marker);
      ConcatOccurrence("] ", t, Marker);
      assert false;
    }
  }

  /**
   * A segment whose text survives the round trip: once trimmed it is
   * non-empty and holds neither a line break nor the banner words.
   */
  predicate Recoverable(seg: Segment) {
    var t := Strip(seg.text);
    t != [] && '\n' !in t && !Contains(t, Marker)
  }

  /** The stamp opens with `[` and is made of digits, `:`, `.`, spaces, `-` and `>`. */
  lemma StampChars(seg: Segment)
    ensures |Stamp(seg)| > 0 && Stamp(seg)[0] == '['
    ensures ']' !in Stamp(seg) && Marker[0] !in Stamp(seg) && '\n' !in Stamp(seg)
  {
    var a, b := FormatTime(seg.start), FormatTime(seg.end);
    FormatTimeChars(seg.start);
    FormatTimeChars(seg.end);
    var s := "[" + a + " --> " + b;
    assert Stamp(seg) == s && s[0] == '[';
    forall c | c in s
      ensures c == '[' || c == ' ' || c == '-' || c == '>' || IsDigit(c) || c == ':' || c == '.'
    {
      if c !in a && c !in b {
        assert c in "[" || c in " --> ";
      }
    }
  }

  /** The timestamped line of a recoverable segment yields the segment's trimmed text. */
  lemma SegmentLineUnit(seg: Segment)
    requires Recoverable(seg)
    ensures LineUnit(SegmentLine(seg)) == Some(Strip(seg.text))
    ensures '\n' !in SegmentLine(seg)
  {
    StampChars(seg);
    StripIdempotent(seg.text);
    BracketLine(Stamp(seg), Strip(seg.text));
  }

  /** The trimmed texts of the segments, in order. */
  function StrippedTexts(segs: seq<Segment>): (texts: seq<string>)
    ensures |texts| == |segs|
  {
    seq(|segs|, i requires 0 <= i < |segs| => Strip(segs[i].text))
  }

  /** The timestamped body yields the trimmed segment texts, one unit per segment. */
  lemma TimestampedBodyUnits(segs: seq<Segment>)
    requires forall i :: 0 <= i < |segs| ==> Recoverable(segs[i])
    ensures TextUnits(TimestampedBody(segs)) == StrippedTexts(segs)
  {
    var lines := SegmentLines(segs);
    forall i | 0 <= i < |lines|
      ensures LineUnit(lines[i]) == Some(StrippedTexts(segs)[i]) && '\n' !in lines[i]
    {
      SegmentLineUnit(segs[i]);
    }
    TerminatedUnits(lines);
    AllKept(lines, StrippedTexts(segs));
  }

  /**
   * Flattening the timestamped transcript gives the trimmed segment texts
   * joined by single spaces: the banner and the stamps are gone.
   */
  lemma TimestampedRoundTrip(r: RecognitionResult)
    requires r.segments.Some?
    requires '\n' !in DetectedLanguage(r)
    requires forall i :: 0 <= i < |r.segments.value| ==> Recoverable(r.segments.value[i])
    ensures PlainText(Render(r, true)) == Join(StrippedTexts(r.segments.value), " ")
  {
    var body := TimestampedBody(r.segments.value);
    assert Render(r, true) == Banner(DetectedLanguage(r)) + body;
    BannerIgnored(DetectedLanguage(r), body);
    TimestampedBodyUnits(r.segments.value);
  }

  /** Flattening the plain transcript gives the flattened recogniser text: the banner is gone. */
  lemma PlainRoundTrip(r: RecognitionResult, timestamps: bool)
    requires !timestamps || r.segments.None?
    requires '\n' !in DetectedLanguage(r)
    ensures PlainText(Render(r, timestamps)) == PlainText(r.text)
  {
    assert Render(r, timestamps) == Banner(DetectedLanguage(r)) + r.text;
    BannerIgnored(DetectedLanguage(r), r.text);
  }

  /**
   * With timestamps on, a result whose segment list is empty shows the banner
   * alone, even when its text is not empty, and so flattens to nothing.
   */
  lemma EmptySegmentList(r: RecognitionResult)
    requires r.segments == Some([])
    ensures Render(r, true) == Banner(DetectedLanguage(r))
    ensures '\n' !in DetectedLanguage(r) ==> PlainText(Render(r, true)) == ""
  {
    assert TimestampedBody([]) == "";
    assert Render(r, true) == Banner(DetectedLanguage(r)) + "";
    if '\n' !in DetectedLanguage(r) {
      BannerIgnored(DetectedLanguage(r), "");
      TextUnitsEmpty();
    }
  }

  /**
   * A transcript that is only a banner is not empty, yet flattens to the
   * empty text.
   */
  lemma BannerOnlyFlattensToNothing(lang: string)
    requires '\n' !in lang
    ensures Banner(lang) != [] && PlainText(Banner(lang)) == []
  {
    assert Banner(lang) + "" == Banner(lang);
    BannerIgnored(lang, "");
    TextUnitsEmpty();
  }

  // ---- Flattening twice ----

  /** A non-empty text with no whitespace at either end. */
  predicate Trimmed(s: string) {
    s != [] && !IsSpace(s[0]) && !IsSpace(s[|s| - 1])
  }

  /** Whatever `unit` keeps from any line satisfies `ok`, so every collected unit does. */
  lemma {:induction false} CollectKeeps(lines: seq<string>, unit: string -> Option<string>, ok: string -> bool)
    requires forall x :: unit(x).Some? ==> ok(unit(x).value)
    ensures forall i :: 0 <= i < |Collect(lines, unit)| ==> ok(Collect(lines, unit)[i])
  {
    if lines != [] {
      CollectKeeps(lines[1..], unit, ok);
    }
  }

  /** Every unit of a text is trimmed. */
  lemma TextUnitsTrimmed(text: string)
    ensures forall i :: 0 <= i < |TextUnits(text)| ==> Trimmed(TextUnits(text)[i])
  {
    forall x | LineUnit(x).Some?
      ensures Trimmed(LineUnit(x).value)
    {
      UnitShape(x);
    }
    CollectKeeps(Split(text, '\n'), LineUnit, Trimmed);
  }

  /** Joining trimmed texts with spaces gives a trimmed text. */
  lemma {:induction false} JoinTrimmed(parts: seq<string>)
    requires |parts| > 0
    requires forall i :: 0 <= i < |parts| ==> Trimmed(parts[i])
    ensures Trimmed(Join(parts, " "))
  {
    if |parts| > 1 {
      JoinTrimmed(parts[1..]);
      var rest := Join(parts[1..], " ");
      var s := parts[0] + " " + rest;
      assert s[0] == parts[0][0];
      assert s[|s| - 1] == rest[|rest| - 1];
    }
  }

  /** The flattened text has no whitespace at either end. */
  lemma PlainTextStripped(text: string)
    ensures Strip(PlainText(text)) == PlainText(text)
  {
    var units := TextUnits(text);
    TextUnitsTrimmed(text);
    var p := Join(units, " ");
    assert p == PlainText(text);
    if units != [] {
      JoinTrimmed(units);
    }
    StripStripped(p);
  }

  /**
   * Flattening an already flattened text changes nothing exactly when it is
   * empty or neither holds the banner words nor opens with `[`: a flattened
   * text that opens with `[` is itself read as a timestamped line.
   */
  lemma Reflatten(text: string)
    ensures var p := PlainText(text);
      PlainText(p) == p <==> p == [] || (!Contains(p, Marker) && !StartsWith(p, '['))
  {
    var p := PlainText(text);
    PlainTextIsOneLine(text);
    PlainTextStripped(text);
    TextUnitsOfLine(p);
    if p == [] {
      BlankLineDropped(p);
    } else if Contains(p, Marker) {
      BannerLineDropped(p);
    } else if StartsWith(p, '[') {
      ReflattenBracket(p);
    } else {
      PlainLineUnit(p);
      assert Join([p], " ") == p;
    }
  }

  /** A trimmed line opening with `[` loses at least its first character, or everything. */
  lemma ReflattenBracket(p: string)
    requires p != [] && Strip(p) == p && StartsWith(p, '[') && !Contains(p, Marker)
    ensures |Kept(LineUnit(p))| == 0 || |LineUnit(p).value| < |p|
  {
    if Contains(p, "] ") {
      var k := FindFirst(p, "] ").value;
      BracketLineUnit(p, k);
    }
  }

  /** `"[a] [b] c"` flattens to `"[b] c"`, which flattens again to `"c"`. */
  lemma ReflattenExample()
    ensures PlainText("[a] [b] c") == "[b] c"
    ensures PlainText("[b] c") == "c"
  {
    OneBracket("[a", "[b] c");
    assert "[a" + "] " + "[b] c" == "[a] [b] c";
    OneBracket("[b", "c");
    assert "[b" + "] " + "c" == "[b] c";
  }

  /** A line made of a stamp, `"] "` and a trimmed text flattens to that text. */
  lemma OneBracket(stamp: string, t: string)
    requires |stamp| > 0 && stamp[0] == '['
    requires ']' !in stamp && Marker[0] !in stamp
    requires t != [] && !IsSpace(t[0]) && !IsSpace(t[|t| - 1])
    requires Marker[0] !in t && '\n' !in stamp + t
    ensures PlainText(stamp + "] " + t) == t
  {
    StripStripped(t);
    AbsentFirst(t, Marker);
    BracketLine(stamp, t);
    TextUnitsOfLine(stamp + "] " + t);
  }
}

=== FILE: wrappers.dfy ===
/** The optional value used wherever the source uses `None` or an absent dictionary key. */
module Wrappers {

  datatype Option<T> = None | Some(value: T) {

    /** The value, or `default` when absent (Python's `dict.get(key, default)`). */
    function GetOr(default: T): T {
      if Some? then value else default
    }
  }
}
